=== FILE: README.md ===
# SleepChecker in Dafny

A model of the `SleepChecker` class. The class wraps an automatic sleep-stage classifier for EEG recordings. With the recording and the classifier abstracted away, what is left is a set of rules over label sequences:

- **Hemisphere resolution.** The first run of decimal digits in a channel name is read as an integer. Even means the right hemisphere and odd means the left, following the 10-20 convention. A name with no digit is an error.
- **Reference strategy and view selection.** `predict` always works with the reference list `M1, M2`. The two references lie on opposite hemispheres, so the recording is split into a view referenced to the right mastoid and a view referenced to the left one. Each EEG channel is classified on the view that its own hemisphere flag indexes, which is the view of the opposite hemisphere. The rows are stacked in channel order.
- **Consensus.** A column on which every row agrees keeps its label. The exception is N1, which always becomes W. Any disagreement also becomes W.
- **Override validation.** The operations can use the cached prediction or a caller-supplied label list. The caller's list is checked against the labels W, N1, N2, N3 and R.
- **Annotation.** The onset `i*30` of every non-W epoch is appended to an onset list kept for the whole session. Each onset gets a 30-second duration and a "bad" or "bad: <stage>" description. The model returns the recording's existing annotation lists followed by the new ones. MNE's re-sorting by onset is not modelled; see "Left out".
- **Sleep percentage.** The percentage is the count of non-W epochs, plus a bonus for a non-W last epoch, divided by the number of epochs and multiplied by 100.

The model is functional. `Stage` is an immutable label datatype. Prediction matrices are sequences of sequences. The session is a record that `Predict`, `AnnotateData` and `GetTotSleepPercentage` take and return. It holds the cached stages, the accumulated onsets and the last percentage. Each exception the model keeps is a case of `Errors.Error` inside a `Result`; the ones it does not keep are listed under "Left out".

The classifier is a function parameter, `Reference.Classifier`. It maps a re-referenced view, an EEG channel name and an optional EOG channel name to a label sequence. The recording is represented by its channel names, its sample count and its sampling rate. The session keeps the channel names. The existing annotations are an opaque `Annotations` value: three parallel lists.

Modules: `Errors`, `Stages`, `Hemisphere`, `Consensus`, `Reference`, `Annotation`, `Percentage`, and `SleepChecker` (constructor and session operations).

The model keeps these behaviours of the code:

- `predict` classifies a right-hemisphere EEG channel on the view referenced to M1, and a left-hemisphere one on the view referenced to M2 (SleepChecker.py:148, 154). `[raw_rh, raw_lh][is_rh[i]]` picks `raw_lh` for a right-hemisphere channel.
- With one EEG channel, the stacked prediction is one-dimensional, and `predict` leaves the cache as it was (SleepChecker.py:172-174).
- `predict` never reads the configured reference channels. It re-references to M2 and then M1, which the recording must contain (SleepChecker.py:124, 135-140). The constructor checks only the configured channels (SleepChecker.py:33-39).
- For a non-W last epoch, `get_tot_sleep_percentage` adds a bonus, and the loop counts the same epoch again (SleepChecker.py:232-240). The whole-epoch test divides the sample count by the literal 512, not by the recording's sampling rate (SleepChecker.py:233).

## Model

| member | source | states |
|---|---|---|
| Stages.Parse | SleepChecker.py:186 | a text label is accepted exactly when it is one of W, N1, N2, N3, R, and an accepted label reads back as the same text |
| Stages.ParseAll | SleepChecker.py:186-189 | an override passes exactly when every entry is a valid label; a failure is the invalid-label error; a passing override comes back entry for entry unchanged |
| Stages.ParseAllCodes | SleepChecker.py:186-190 | any label sequence written out as text passes validation and comes back as the same labels (round trip) |
| Stages.CountSleep | SleepChecker.py:237-239 | the number of non-W epochs is at most the number of epochs and is zero exactly when every epoch is W |
| Hemisphere.FirstDigitFrom | SleepChecker.py:64 | the scan finds the leftmost digit at or after the start position, or reports that there is none |
| Hemisphere.DigitRunEnd | SleepChecker.py:64 | the digit run is extended as far as possible: every character in it is a digit and the next one is not |
| Hemisphere.FirstDigitRun | SleepChecker.py:64 | the span found is the leftmost maximal digit run, and there is no span exactly when the name has no digit |
| Hemisphere.FirstDigitRunUnique | SleepChecker.py:64 | any two spans that are both the leftmost maximal digit run are the same span |
| Hemisphere.ParityOfLastDigit | SleepChecker.py:70 | a decimal number is even exactly when its last digit is even |
| Hemisphere.ChannelNumber | SleepChecker.py:64 | a number exists exactly when the name has a digit, and it is the decimal value of the leftmost maximal digit run, whichever span satisfies that description |
| Hemisphere.RightIffRunEndsEven | SleepChecker.py:64-70 | a channel is right-hemisphere exactly when the last digit of its first digit run is even |
| Hemisphere.WhichHemisphere | SleepChecker.py:63-71 | the call succeeds exactly when every name has a digit; otherwise it fails with the invalid-name error; on success there is one flag per name, and flag k is true exactly when name k's channel number is even |
| Hemisphere.ElectrodeHemispheres | SleepChecker.py:63-71 | M1 and C3 resolve to the left hemisphere, M2 and C4 to the right |
| Hemisphere.HemisphereExamples | SleepChecker.py:63-71 | C4, M2, C3, M1 resolve to right, right, left, left |
| Hemisphere.DigitlessNameRejected | SleepChecker.py:63-71 | a list that contains a digitless name such as Fpz fails with the invalid-name error |
| Consensus.Combine | SleepChecker.py:103-113 | one label per column; N1 never appears; every non-W label is the label of every row in its column; a unanimous column whose label is not N1 keeps it |
| Consensus.CombineCharacterised | SleepChecker.py:103-113 | the properties in Combine's contract determine the consensus completely: any sequence that has them equals it |
| Consensus.KeepN1HasNoEffect | SleepChecker.py:107 | the consensus is the same whether keepN1 is true or false |
| Consensus.CombinePredictions | SleepChecker.py:103-113 | the two-pass loop computes exactly the consensus: first the per-column comparison with row 0, then the labelling |
| Consensus.CombineExamples | SleepChecker.py:103-113 | two rows of N2 give N2 twice; a single N1 row with keepN1 set gives W twice; N2 against N3 gives W |
| Consensus.IntendedCombine | SleepChecker.py:107 | corrected consensus: with keepN1 set, every unanimous column keeps its label, N1 included; without it, the result equals the code's consensus |
| Consensus.KeepN1Counterexample | SleepChecker.py:107-110 | two channels agreeing on N1 with keepN1 set: the code gives W, the corrected consensus gives N1 |
| Reference.ComplementIndexOfPair | SleepChecker.py:139 | on a two-element list, indexing with `~k` selects the element that index k does not |
| Reference.FirstTrue | SleepChecker.py:136 | the position returned holds true and no earlier position does |
| Reference.PairChoice | SleepChecker.py:136-139 | on a pair with differing flags, the first flagged position holds the flagged element, and `~idx` picks the other element |
| Reference.SplitReferences | SleepChecker.py:128-140 | in a split, the reference picked first is the right-hemisphere channel and the one picked by `~idx` is the left-hemisphere channel; together they are the pair |
| Reference.ReferencePlan | SleepChecker.py:124-140 | the split is chosen exactly when there are two references with digits on different hemispheres; two references of which at least one has no digit fail; the right view's reference is the right-hemisphere channel and the left view's reference is the other one; otherwise the combined view uses all references |
| Reference.ViewFor | SleepChecker.py:148-154 | in a split, a right-hemisphere channel's view is referenced to the left reference alone, and a left-hemisphere channel's view to the right reference alone; the combined view keeps all references |
| Reference.PredictRefsSplit | SleepChecker.py:124-140 | the fixed list M1, M2 always splits, with M2 as the right reference and M1 as the left |
| Reference.PredictionRows | SleepChecker.py:141-171 | one row per EEG channel, in configured order; in a split, row k is the classifier's output on the view chosen by channel k's own hemisphere flag, and a digitless EEG name fails; in the combined case every row uses the single view |
| Reference.ContralateralViews | SleepChecker.py:141-155 | in a split, every EEG channel is classified on a view referenced to a single configured reference channel of the opposite hemisphere |
| Annotation.Concat | SleepChecker.py:204-218 | the prior annotations come first, unchanged, and the new ones follow in each of the three lists (MNE's re-sorting is left out) |
| Annotation.SleepEpochs | SleepChecker.py:206-209 | lists non-W epoch indices in strictly ascending order, one for each non-W epoch |
| Annotation.SleepEpochsComplete | SleepChecker.py:206-208 | every non-W epoch's index is listed |
| Annotation.SleepOnsets | SleepChecker.py:206-208 | each onset is a multiple of 30 whose epoch is non-W; the onsets ascend strictly and there are as many as non-W epochs |
| Annotation.SleepOnsetsComplete | SleepChecker.py:206-208 | every non-W epoch i contributes the onset i*30 |
| Annotation.SleepPhases | SleepChecker.py:205-209 | the collected phases are never W, and there is one per non-W epoch |
| Annotation.PhasesAtOnsets | SleepChecker.py:206-209 | the j-th collected phase is the label of the epoch at this pass's j-th onset, so phases and onsets line up |
| Annotation.JoinPairs | SleepChecker.py:213 | `zip` stops at the shorter list, and entry k joins the k-th items of both lists with ": " |
| Annotation.BuildAnnotations | SleepChecker.py:205-217 | the onset list becomes the earlier onsets followed by this pass's sleep onsets; every onset gets a 30-second duration; without stage names there is one "bad" per accumulated onset; with them there are only this pass's "bad: <stage>" descriptions |
| Annotation.OnsetsAccumulate | SleepChecker.py:206-208 | after a pass, the earlier onsets are kept unchanged and first, followed by exactly this pass's non-W onsets in ascending order |
| Annotation.DescriptionsAlignIff | SleepChecker.py:211-213 | there are as many descriptions as onsets exactly when stage names are off or no onsets were accumulated before |
| Annotation.RepeatedPassDuplicates | SleepChecker.py:206-208 | a second pass over the same labels appends the same onsets again |
| Annotation.ExampleOnsets | SleepChecker.py:206-209 | in W, N2, N2, W the two N2 epochs give onsets 30 and 60 |
| Annotation.AnnotationExample | SleepChecker.py:205-217 | W, N2, N2, W without stage names gives onsets 30 and 60, duration 30 each, described "bad" |
| Annotation.AnnotationStageExample | SleepChecker.py:211-213 | the same labels with stage names are described "bad: N2" twice |
| Percentage.FloorDiv | SleepChecker.py:233 | floor division returns the integer q with q <= x/y < q + 1 |
| Percentage.FloatMod | SleepChecker.py:234 | the float remainder is what is left of x after `x // y` whole multiples of y (x == y*(x // y) + r), lies in [0, y), and is x itself when x is already in [0, y) |
| Percentage.TrailingBonus | SleepChecker.py:232-236 | the bonus lies in [0, 1]; it is zero for a W last epoch; for a non-W last epoch it is one when the label count is within the whole epochs at 512 Hz, and below one otherwise |
| Percentage.SleepPercentage | SleepChecker.py:231-240 | fails exactly on an empty label list; with a W last epoch it is the share of non-W epochs in percent; in general it lies between 0 and the share of the non-W epochs plus one |
| Percentage.TotSleepPercentage | SleepChecker.py:231-240 | the bonus step and the counting loop give the percentage defined by SleepPercentage; the value from the last iteration is the result |
| Percentage.WholeTrailingEpochCountedTwice | SleepChecker.py:232-239 | a non-W last epoch that passes the whole-epoch test adds one unit on top of its own count |
| Percentage.PartialTrailingEpoch | SleepChecker.py:233-234 | otherwise a non-W last epoch adds the leftover fraction of a 30-second epoch, a value in [0, 1) |
| Percentage.WholeEpochTestIgnoresSamplingRate | SleepChecker.py:233 | when the whole-epoch test holds, the recording's sampling rate does not affect the result |
| Percentage.PercentageExample | SleepChecker.py:231-240 | W, N2, N2, W over two minutes gives 50 |
| Percentage.PercentageCanExceedHundred | SleepChecker.py:232-240 | one N2 epoch recorded for 30 s at 512 Hz gives 200 |
| Percentage.IntendedSleepPercentage | SleepChecker.py:232-240 | corrected percentage: always between 0 and 100; it agrees with the code's result when the last epoch is W; when every labelled epoch lies within the recording at its own sampling rate, it is the share of non-W epochs |
| Percentage.DoubleCountOfLastEpoch | SleepChecker.py:232-239 | at 512 Hz with a non-W last epoch, the code's figure exceeds the corrected one by exactly one epoch's share |
| Percentage.DoubleCountCounterexample | SleepChecker.py:232-240 | one N2 epoch recorded for 30 s at 512 Hz gives 200 as written and 100 corrected |
| SleepChecker.AllStrings | SleepChecker.py:87 | true exactly when every item is a string |
| SleepChecker.IsListOfStrings | SleepChecker.py:86-89 | true exactly for a non-empty list whose items are all strings |
| SleepChecker.RequiredChannels | SleepChecker.py:33-37 | the names are checked in the order EEG channels, then the listed reference channels, then a non-empty EOG name last, with nothing else in between; a name is required exactly when it is one of these |
| SleepChecker.FirstMissing | SleepChecker.py:38-39 | nothing exactly when every name is available; otherwise the first name in check order that the recording lacks, every earlier one being present |
| SleepChecker.WellTyped | SleepChecker.py:23-26 | accepted exactly when the EEG and reference names are a string or a non-empty list of strings, the EOG name is a string or None, and keepN1 is a boolean |
| SleepChecker.Normalise | SleepChecker.py:28-31 | a single EEG name becomes a one-element list, so there is always at least one EEG channel; a single reference name becomes a one-element list unless it is "average" or "REST", which stay keywords; a list is kept as given |
| SleepChecker.NewSession | SleepChecker.py:23-49 | a badly typed argument gives the configuration error; otherwise the session is created exactly when every required channel is in the recording, and any other outcome is the missing-channel error naming the first missing channel in check order; a new session keeps the recording's channel names and has no prediction, no onsets and no percentage |
| SleepChecker.EmptyEogNameNotChecked | SleepChecker.py:36-37 | an empty EOG name is accepted exactly when no EOG channel would be, since it is never checked against the recording |
| SleepChecker.Predict | SleepChecker.py:124-174 | a recording without M2 fails naming M2, and one with M2 but without M1 fails naming M1; with both present, a digitless EEG name gives the invalid-name error, and the only other failure is ragged rows; configuration, channels, onsets and percentage are unchanged; the result is the cache; one EEG channel leaves the session as it was; with several channels the cache is set and holds no N1 |
| SleepChecker.PredictCachesContralateralConsensus | SleepChecker.py:141-173 | with several EEG channels on a recording that has M1 and M2, predict succeeds exactly when the rows have one length; it then caches the consensus of the rows, where each row is classified on the mastoid reference of the opposite hemisphere (M1 for right channels, M2 for left), in channel order |
| SleepChecker.PredictSingleChannelKeepsCache | SleepChecker.py:172-174 | with one EEG channel with a digit, on a recording that has M1 and M2, predict returns the previous cache and changes nothing |
| SleepChecker.PredictIgnoresConfiguredReference | SleepChecker.py:124 | changing the configured reference channels changes neither whether predict succeeds nor what it returns |
| SleepChecker.CheckSleepStages | SleepChecker.py:180-190 | without an override: the cache, or the missing-prediction error when there is none; with one: the invalid-label error when an entry is not a valid label, otherwise the override's labels unchanged |
| SleepChecker.AnnotateData | SleepChecker.py:203-218 | fails exactly when label validation fails; otherwise the session's onset list grows by one pass, and the result is the prior annotations followed by the pass's annotations |
| SleepChecker.AnnotateTwiceDuplicatesOnsets | SleepChecker.py:206-208 | two annotation passes over the cache leave every sleep onset in the list twice |
| SleepChecker.GetTotSleepPercentage | SleepChecker.py:230-242 | validation errors are passed on; an empty label list fails; a validated non-empty list always succeeds, and the percentage is the one defined by SleepPercentage and is stored in the session |

## Left out

- MNE `Raw` objects are not modelled: copying a recording, the signal arithmetic of `set_eeg_reference`, and `set_annotations`. A view is only the list of reference channels it is referenced to. The error `set_eeg_reference` raises for a channel the recording lacks is modelled as `ChannelNotFound`.
- The unified branch re-references the recording in place (SleepChecker.py:157). This side effect on later calls is not modelled. The branch is never taken with the fixed list M1, M2.
- The yasa classifier is a machine-learning model. It is the function parameter `Reference.Classifier`.
- The type assertion on the recording (SleepChecker.py:22) and the ndarray assertion on an override (SleepChecker.py:185) are not modelled. Overrides are modelled as lists of strings. Python assertions removed by `-O` are not modelled either.
- numpy array mechanics are replaced by sequences: `vstack`, `ndim` and the two-character "U2" dtype. Every valid label fits in two characters. Rows of unequal length, which `vstack` rejects, become `StackShapeMismatch`.
- Annotation.Concat: `+` on `mne.Annotations` keeps the entries sorted by onset (SleepChecker.py:218). The model keeps the prior lists first and the new ones after them, and does not re-sort.
- Building an `mne.Annotations` object is not modelled. That includes its check that the three lists have equal sizes, its broadcasting of a single description, and the `orig_time` handling of `+`. The model keeps the three lists that are passed to it. `Annotation.DescriptionsAlignIff` states when those lists differ in length.
- SleepChecker.AnnotateData: succeeds whenever label validation succeeds, because the `mne.Annotations(...)` size check at SleepChecker.py:215-217 is not modelled. In the code, a pass with SpecifyStage set that follows a pass which found sleep has fewer descriptions than onsets, and that call raises, unless this pass finds exactly one sleep epoch, whose single description is broadcast.
- Floating point is not modelled. The percentage uses exact real arithmetic, and the sample count and sampling rate are positive integers.
- `SleepChecker.Predict` requires a non-empty EEG channel list; the constructor never produces an empty one.
- Regular-expression matching is modelled as a left-to-right scan for ASCII digits.

## Findings

| source | as written | input that shows it | evidently intended | confidence | as-written member | corrected member |
|---|---|---|---|---|---|---|
| SleepChecker.py:107 | `label == "N1" or (not keepN1 and label == "N1")` demotes every unanimous N1 to W | two EEG channels that both predict N1, with keepN1 = True: the consensus is W | demote N1 only when keepN1 is false | not executed; high | Consensus.KeepN1Counterexample | Consensus.IntendedCombine |
| SleepChecker.py:232-239 | the bonus for a non-W last epoch is added, and then the loop counts the same epoch again | labels [N2], 15360 samples at 512 Hz: the result is 200.0 | count the last epoch once, as a fraction when the recording ends inside it | not executed; high | Percentage.DoubleCountCounterexample | Percentage.IntendedSleepPercentage |

The session operations `SleepChecker.Predict` and `SleepChecker.GetTotSleepPercentage` keep the code's behaviour as written. The corrected definitions stand beside them, with their properties proved.

=== FILE: annotation.dfy ===
/** Annotation construction: every non-W epoch i contributes an onset i*30 to
    a session-wide onset list that is never cleared; the added annotation lists
    (onsets, 30-second durations, descriptions) are appended after the
    recording's prior annotations. */
module Annotation {
  import opened Stages

  const EpochSeconds: nat := 30

  /** The three parallel lists an annotation set is made of. */
  datatype Annotations = Annotations(onsets: seq<real>, durations: seq<real>, descriptions: seq<string>)

  /** `prior + added`: each list of the added set is appended to the prior one. */
  function Concat(prior: Annotations, added: Annotations): (r: Annotations)
    ensures |r.onsets| == |prior.onsets| + |added.onsets|
    ensures |r.durations| == |prior.durations| + |added.durations|
    ensures |r.descriptions| == |prior.descriptions| + |added.descriptions|
    ensures r.onsets[..|prior.onsets|] == prior.onsets && r.onsets[|prior.onsets|..] == added.onsets
    ensures r.durations[..|prior.durations|] == prior.durations && r.durations[|prior.durations|..] == added.durations
    ensures r.descriptions[..|prior.descriptions|] == prior.descriptions
    ensures r.descriptions[|prior.descriptions|..] == added.descriptions
  {
    Annotations(prior.onsets + added.onsets, prior.durations + added.durations,
                prior.descriptions + added.descriptions)
  }

  /** Indices of the non-W epochs, in ascending order. */
  function SleepEpochs(stages: seq<Stage>): (idx: seq<nat>)
    ensures |idx| == CountSleep(stages)
    ensures forall j :: 0 <= j < |idx| ==> idx[j] < |stages| && stages[idx[j]] != W
    ensures forall j, j' :: 0 <= j < j' < |idx| ==> idx[j] < idx[j']
  {
    if stages == [] then []
    else
      var last := |stages| - 1;
      var init := stages[..last];
      var rest := SleepEpochs(init);
      assert forall i :: 0 <= i < last ==> stages[i] == init[i];
      if stages[last] != W then rest + [last] else rest
  }

  /** Every non-W epoch is listed. */
  lemma {:induction false} SleepEpochsComplete(stages: seq<Stage>, i: nat)
    requires i < |stages| && stages[i] != W
    ensures i in SleepEpochs(stages)
  {
    var last := |stages| - 1;
    if i < last {
      var init := stages[..last];
      assert init[i] == stages[i];
      SleepEpochsComplete(init, i);
    }
  }

  /** Onset in seconds of each non-W epoch. */
  function SleepOnsets(stages: seq<Stage>): (t: seq<nat>)
    ensures |t| == CountSleep(stages)
    ensures forall j :: 0 <= j < |t| ==>
              t[j] % EpochSeconds == 0 && t[j] / EpochSeconds < |stages| && stages[t[j] / EpochSeconds] != W
    ensures forall j, j' :: 0 <= j < j' < |t| ==> t[j] < t[j']
  {
    var idx := SleepEpochs(stages);
    var t := seq(|idx|, j requires 0 <= j < |idx| => idx[j] * EpochSeconds);
    assert forall j :: 0 <= j < |t| ==> t[j] / EpochSeconds == idx[j];
    t
  }

  /** Every non-W epoch has its onset in the list. */
  lemma SleepOnsetsComplete(stages: seq<Stage>, i: nat)
    requires i < |stages| && stages[i] != W
    ensures i * EpochSeconds in SleepOnsets(stages)
  {
    var idx := SleepEpochs(stages);
    SleepEpochsComplete(stages, i);
    var j :| 0 <= j < |idx| && idx[j] == i;
    assert SleepOnsets(stages)[j] == i * EpochSeconds;
  }

  /** The labels of the non-W epochs in epoch order, collected as the
      annotation loop appends them. */
  function SleepPhases(stages: seq<Stage>): (p: seq<Stage>)
    ensures |p| == CountSleep(stages)
    ensures forall j :: 0 <= j < |p| ==> p[j] != W
  {
    if stages == [] then []
    else
      var last := |stages| - 1;
      var init := stages[..last];
      assert forall i :: 0 <= i < last ==> stages[i] == init[i];
      SleepPhases(init) + (if stages[last] != W then [stages[last]] else [])
  }

  /** The j-th phase is the label of the j-th non-W epoch, so phases and this
      pass's onsets line up. */
  lemma PhasesAtOnsets(stages: seq<Stage>)
    ensures forall j :: 0 <= j < |SleepPhases(stages)| ==>
              SleepPhases(stages)[j] == stages[SleepOnsets(stages)[j] / EpochSeconds]
  {
    PhasesAtEpochs(stages);
    var idx := SleepEpochs(stages);
    var t := SleepOnsets(stages);
    assert forall j :: 0 <= j < |t| ==> t[j] / EpochSeconds == idx[j];
  }

  lemma {:induction false} PhasesAtEpochs(stages: seq<Stage>)
    ensures forall j :: 0 <= j < |SleepPhases(stages)| ==> SleepPhases(stages)[j] == stages[SleepEpochs(stages)[j]]
  {
    if stages != [] {
      var last := |stages| - 1;
      var init := stages[..last];
      PhasesAtEpochs(init);
      assert forall i :: 0 <= i < last ==> stages[i] == init[i];
    }
  }

  /** `[a + ": " + b for a, b in zip(xs, ys)]`: pairs up to the shorter list. */
  function JoinPairs(xs: seq<string>, ys: seq<string>): (r: seq<string>)
    ensures |r| == if |xs| <= |ys| then |xs| else |ys|
    ensures forall k :: 0 <= k < |r| ==> r[k] == xs[k] + ": " + ys[k]
  {
    var n := if |xs| <= |ys| then |xs| else |ys|;
    seq(n, k requires 0 <= k < n => xs[k] + ": " + ys[k])
  }

  function Repeat<T>(x: T, n: nat): (r: seq<T>)
    ensures |r| == n && forall k :: 0 <= k < n ==> r[k] == x
  {
    seq(n, _ => x)
  }

  /** The result of one annotation pass: the grown onset list and the added set. */
  datatype Built = Built(onsets: seq<nat>, annotations: Annotations)

  /** One annotation pass over `stages` given the onsets accumulated before
      it: this pass's sleep onsets go after the earlier ones, each onset gets a
      30-second duration, and the descriptions are "bad" per onset or, with
      stage names, "bad: <stage>" for this pass's epochs only. */
  function BuildAnnotations(stages: seq<Stage>, specifyStage: bool, accumulated: seq<nat>): (r: Built)
    ensures r.onsets == accumulated + SleepOnsets(stages)
    ensures |r.annotations.onsets| == |r.annotations.durations| == |r.onsets|
    ensures forall j :: 0 <= j < |r.onsets| ==>
              r.annotations.onsets[j] == r.onsets[j] as real && r.annotations.durations[j] == 30.0
    ensures !specifyStage ==> r.annotations.descriptions == Repeat("bad", |r.onsets|)
    ensures specifyStage ==>
              |r.annotations.descriptions| == CountSleep(stages)
              && forall j :: 0 <= j < CountSleep(stages) ==>
                   r.annotations.descriptions[j] == "bad: " + Code(SleepPhases(stages)[j])
  {
    var onsets := accumulated + SleepOnsets(stages);
    var base := Repeat("bad", |onsets|);
    var descriptions := if specifyStage then JoinPairs(base, Codes(SleepPhases(stages))) else base;
    Built(onsets,
          Annotations(seq(|onsets|, j requires 0 <= j < |onsets| => onsets[j] as real),
                      Repeat(30.0, |onsets|), descriptions))
  }

  /** The onset list after a pass: the earlier onsets unchanged and first, then
      exactly the onsets of this pass's non-W epochs, ascending. */
  lemma OnsetsAccumulate(stages: seq<Stage>, specifyStage: bool, accumulated: seq<nat>)
    ensures var r := BuildAnnotations(stages, specifyStage, accumulated);
            && r.onsets[..|accumulated|] == accumulated
            && |r.onsets| == |accumulated| + CountSleep(stages)
            && (forall j :: |accumulated| <= j < |r.onsets| ==>
                  r.onsets[j] % EpochSeconds == 0 && r.onsets[j] / EpochSeconds < |stages|
                  && stages[r.onsets[j] / EpochSeconds] != W)
            && (forall j, j' :: |accumulated| <= j < j' < |r.onsets| ==> r.onsets[j] < r.onsets[j'])
            && (forall i :: 0 <= i < |stages| && stages[i] != W ==> i * EpochSeconds in r.onsets[|accumulated|..])
  {
    var r := BuildAnnotations(stages, specifyStage, accumulated);
    var t := SleepOnsets(stages);
    assert r.onsets[|accumulated|..] == t;
    assert forall j :: |accumulated| <= j < |r.onsets| ==> r.onsets[j] == t[j - |accumulated|];
    forall i | 0 <= i < |stages| && stages[i] != W
      ensures i * EpochSeconds in r.onsets[|accumulated|..]
    {
      SleepOnsetsComplete(stages, i);
    }
  }

  /** With stage names requested, the description list matches the onset list
      in length only on the first pass that finds sleep: `zip` stops at this
      pass's epochs while the onsets keep every earlier pass's. */
  lemma DescriptionsAlignIff(stages: seq<Stage>, specifyStage: bool, accumulated: seq<nat>)
    ensures var r := BuildAnnotations(stages, specifyStage, accumulated);
            |r.annotations.descriptions| == |r.annotations.onsets| <==> !specifyStage || accumulated == []
  {
  }

  /** Annotating the same labels twice without resetting lists every onset twice. */
  lemma RepeatedPassDuplicates(stages: seq<Stage>, specifyStage: bool, accumulated: seq<nat>)
    ensures var once := BuildAnnotations(stages, specifyStage, accumulated);
            var twice := BuildAnnotations(stages, specifyStage, once.onsets);
            var added := once.onsets[|accumulated|..];
            twice.onsets == accumulated + added + added
  {
    var once := BuildAnnotations(stages, specifyStage, accumulated);
    var twice := BuildAnnotations(stages, specifyStage, once.onsets);
    assert once.onsets == accumulated + SleepOnsets(stages);
    assert twice.onsets == once.onsets + SleepOnsets(stages);
    assert once.onsets[|accumulated|..] == SleepOnsets(stages);
  }

  /** The sleep epochs of the four-epoch example W, N2, N2, W. */
  lemma ExampleEpochs()
    ensures SleepEpochs([W, N2, N2, W]) == [1, 2]
  {
    assert [W][..0] == [];
    assert [W, N2][..1] == [W];
    assert [W, N2, N2][..2] == [W, N2];
    assert [W, N2, N2, W][..3] == [W, N2, N2];
    assert SleepEpochs([W]) == [];
    assert SleepEpochs([W, N2]) == [1];
    var x := SleepEpochs([W, N2]);
    assert SleepEpochs([W, N2, N2]) == x + [2];
    assert SleepEpochs([W, N2, N2, W]) == [1, 2];
  }

  /** Onsets and phases of W, N2, N2, W: the two N2 epochs start at 30 s and 60 s. */
  lemma ExampleOnsets()
    ensures SleepOnsets([W, N2, N2, W]) == [30, 60]
    ensures SleepPhases([W, N2, N2, W]) == [N2, N2]
  {
    ExampleEpochs();
    var t := SleepOnsets([W, N2, N2, W]);
    assert t[0] == 30 && t[1] == 60;
  }

  /** W, N2, N2, W without stage names: onsets 30 and 60, each described "bad". */
  lemma AnnotationExample()
    ensures var r := BuildAnnotations([W, N2, N2, W], false, []);
            r.onsets == [30, 60] && r.annotations.durations == [30.0, 30.0]
            && r.annotations.descriptions == ["bad", "bad"]
  {
    ExampleOnsets();
    assert [] + [30, 60] == [30, 60];
  }

  /** The same labels with stage names: both descriptions read "bad: N2". */
  lemma AnnotationStageExample()
    ensures BuildAnnotations([W, N2, N2, W], true, []).annotations.descriptions == ["bad: N2", "bad: N2"]
  {
    ExampleOnsets();
    var q := BuildAnnotations([W, N2, N2, W], true, []);
    assert |q.annotations.descriptions| == 2;
    assert Code(N2) == "N2";
    assert q.annotations.descriptions[0] == "bad: N2" && q.annotations.descriptions[1] == "bad: N2";
  }
}

=== FILE: checker.dfy ===
/** The SleepChecker session: the constructor's argument normalisation and
    channel check, and the operations `predict`, `annotate_data` and
    `get_tot_sleep_percentage` threaded over an immutable session record that
    holds the cached stages, the accumulated sleep onsets and the last
    percentage. The recording is represented by its channel names, sample count
    and sampling rate; the classifier is a function parameter. */
module SleepChecker {
  import opened Errors
  import opened Stages
  import opened Hemisphere
  import opened Consensus
  import opened Reference
  import opened Annotation
  import opened Percentage

  /** The dynamically typed constructor arguments, as far as the checks look at them. */
  datatype Value = Str(s: string) | List(items: seq<Value>) | NoneValue | Bool(b: bool) | Other

  /** Every item is a string. */
  function AllStrings(items: seq<Value>): (b: bool)
    ensures b <==> forall k :: 0 <= k < |items| ==> items[k].Str?
  {
    if items == [] then true
    else items[0].Str? && AllStrings(items[1..])
  }

  /** A non-empty list whose items are all strings (an empty list is falsy). */
  function IsListOfStrings(v: Value): (b: bool)
    ensures b <==> v.List? && |v.items| > 0 && forall k :: 0 <= k < |v.items| ==> v.items[k].Str?
  {
    if v.List? && v.items != [] then AllStrings(v.items) else false
  }

  function Strings(items: seq<Value>): (names: seq<string>)
    requires forall k :: 0 <= k < |items| ==> items[k].Str?
    ensures |names| == |items| && forall k :: 0 <= k < |items| ==> names[k] == items[k].s
  {
    seq(|items|, k requires 0 <= k < |items| => items[k].s)
  }

  /** The reference setting: a list of channels, or the word "average" or "REST". */
  datatype RefSpec = RefChannels(names: seq<string>) | RefKeyword(word: string)

  datatype Config = Config(eegNames: seq<string>, eogName: Option<string>, refChannel: RefSpec, keepN1: bool)

  /** The session: configuration, the recording's channel names, cached
      consensus, accumulated onsets, last percentage. */
  datatype Session = Session(config: Config, channels: seq<string>, stages: Option<seq<Stage>>,
                             onsets: seq<nat>, percentage: Option<real>)

  /** The channels the constructor requires the recording to have, in the order
      it checks them: the EEG channels, the reference channels when they are a
      list, and the EOG channel when it is a non-empty name. */
  function RequiredChannels(c: Config): (names: seq<string>)
    ensures |c.eegNames| <= |names| && names[..|c.eegNames|] == c.eegNames
    ensures c.refChannel.RefChannels? ==>
              |c.eegNames| + |c.refChannel.names| <= |names|
              && names[|c.eegNames|..|c.eegNames| + |c.refChannel.names|] == c.refChannel.names
    ensures c.eogName.Some? && c.eogName.value != "" ==> 0 < |names| && names[|names| - 1] == c.eogName.value
    ensures |names| == |c.eegNames|
                       + (if c.refChannel.RefChannels? then |c.refChannel.names| else 0)
                       + (if c.eogName.Some? && c.eogName.value != "" then 1 else 0)
    ensures forall n :: n in names <==>
              || n in c.eegNames
              || (c.refChannel.RefChannels? && n in c.refChannel.names)
              || (c.eogName.Some? && c.eogName.value != "" && n == c.eogName.value)
  {
    c.eegNames
    + (if c.refChannel.RefChannels? then c.refChannel.names else [])
    + (if c.eogName.Some? && c.eogName.value != "" then [c.eogName.value] else [])
  }

  /** `name` is the first of `names`, in order, that `available` lacks. */
  predicate IsFirstMissing(names: seq<string>, available: seq<string>, name: string) {
    exists k :: 0 <= k < |names| && names[k] == name && name !in available
                && forall j :: 0 <= j < k ==> names[j] in available
  }

  /** The first name missing from `available`, if any: the name the
      constructor's check loop stops at. */
  function FirstMissing(names: seq<string>, available: seq<string>): (r: Option<string>)
    ensures r.None? <==> forall k :: 0 <= k < |names| ==> names[k] in available
    ensures r.Some? ==> IsFirstMissing(names, available, r.value)
  {
    if names == [] then None
    else if names[0] !in available then
      Some(names[0])
    else
      var rest := FirstMissing(names[1..], available);
      assert forall k :: 1 <= k < |names| ==> names[k] == names[1..][k - 1];
      if rest.Some? then
        var k :| 0 <= k < |names[1..]| && names[1..][k] == rest.value && rest.value !in available
                 && forall j :: 0 <= j < k ==> names[1..][j] in available;
        assert names[k + 1] == rest.value;
        assert forall j :: 0 <= j < k + 1 ==> names[j] in available by {
          forall j | 0 <= j < k + 1
            ensures names[j] in available
          {
            if j > 0 {
              assert names[j] == names[1..][j - 1];
            }
          }
        }
        rest
      else
        rest
  }

  /** Argument shapes the constructor accepts: names as a string or a
      non-empty list of strings, the EOG name as a string or None, keepN1 as a
      boolean. */
  function WellTyped(eeg: Value, eog: Value, ref: Value, keepN1: Value): (b: bool)
    ensures b <==>
              && (eeg.Str? || (eeg.List? && |eeg.items| > 0 && forall k :: 0 <= k < |eeg.items| ==> eeg.items[k].Str?))
              && !eog.List? && !eog.Bool? && !eog.Other?
              && (ref.Str? || (ref.List? && |ref.items| > 0 && forall k :: 0 <= k < |ref.items| ==> ref.items[k].Str?))
              && keepN1.Bool?
  {
    && (eeg.Str? || IsListOfStrings(eeg))
    && (eog.Str? || eog.NoneValue?)
    && (ref.Str? || IsListOfStrings(ref))
    && keepN1.Bool?
  }

  /** The configuration after normalisation: a single EEG name becomes a
      one-element list, a single reference name other than "average" and
      "REST" becomes a one-element list. */
  function Normalise(eeg: Value, eog: Value, ref: Value, keepN1: Value): (c: Config)
    requires WellTyped(eeg, eog, ref, keepN1)
    ensures |c.eegNames| > 0
    ensures eeg.Str? ==> c.eegNames == [eeg.s]
    ensures eeg.List? ==> c.eegNames == Strings(eeg.items)
    ensures c.refChannel.RefKeyword? <==> ref.Str? && ref.s in ["average", "REST"]
    ensures c.refChannel.RefKeyword? ==> c.refChannel.word == ref.s
    ensures ref.Str? && ref.s !in ["average", "REST"] ==> c.refChannel == RefChannels([ref.s])
    ensures ref.List? ==> c.refChannel == RefChannels(Strings(ref.items))
    ensures c.eogName.Some? <==> eog.Str?
    ensures c.eogName.Some? ==> c.eogName.value == eog.s
  {
    var eegNames := if eeg.Str? then [eeg.s] else Strings(eeg.items);
    var refChannel :=
      if ref.Str? then
        if ref.s !in ["average", "REST"] then RefChannels([ref.s]) else RefKeyword(ref.s)
      else RefChannels(Strings(ref.items));
    var eogName := if eog.Str? then Some(eog.s) else None;
    Config(eegNames, eogName, refChannel, keepN1.b)
  }

  /** The constructor: argument shapes first, then every required channel must
      be one of the recording's channels. A new session has no prediction,
      no onsets and no percentage. */
  function NewSession(channels: seq<string>, eeg: Value, eog: Value, ref: Value, keepN1: Value): (r: Result<Session>)
    ensures !WellTyped(eeg, eog, ref, keepN1) <==> r == Err(InvalidConfiguration)
    ensures r.Ok? <==>
              WellTyped(eeg, eog, ref, keepN1)
              && forall k :: 0 <= k < |RequiredChannels(Normalise(eeg, eog, ref, keepN1))| ==>
                   RequiredChannels(Normalise(eeg, eog, ref, keepN1))[k] in channels
    ensures WellTyped(eeg, eog, ref, keepN1) && r.Err? ==>
              r.error.ChannelNotFound?
              && IsFirstMissing(RequiredChannels(Normalise(eeg, eog, ref, keepN1)), channels, r.error.name)
    ensures r.Ok? ==>
              && r.value.config == Normalise(eeg, eog, ref, keepN1)
              && r.value.channels == channels
              && r.value.stages.None? && r.value.onsets == [] && r.value.percentage.None?
  {
    if !WellTyped(eeg, eog, ref, keepN1) then Err(InvalidConfiguration)
    else
      var config := Normalise(eeg, eog, ref, keepN1);
      match FirstMissing(RequiredChannels(config), channels)
      case Some(c) => Err(ChannelNotFound(c))
      case None => Ok(Session(config, channels, None, [], None))
  }

  /** An empty EOG name is stored but not checked against the recording. */
  lemma EmptyEogNameNotChecked(channels: seq<string>, eeg: Value, ref: Value, keepN1: Value)
    requires WellTyped(eeg, NoneValue, ref, keepN1)
    ensures NewSession(channels, eeg, Str(""), ref, keepN1).Ok?
            <==> NewSession(channels, eeg, NoneValue, ref, keepN1).Ok?
  {
    assert RequiredChannels(Normalise(eeg, Str(""), ref, keepN1))
           == RequiredChannels(Normalise(eeg, NoneValue, ref, keepN1));
  }

  /** `predict`: the reference plan of the fixed list M1, M2 (`PredictPlan`,
      which `PredictRefsSplit` shows `ReferencePlan` yields). The right view
      is re-referenced to M2 and then the left view to M1, and each fails when
      the recording lacks its channel. Then there is one row per EEG channel,
      and the consensus when there are two rows or more. With a single EEG
      channel the stacked result is one-dimensional and the cache is left as
      it was. */
  function Predict(s: Session, classify: Classifier): (r: Result<(Session, Option<seq<Stage>>)>)
    requires |s.config.eegNames| > 0
    ensures r.Err? ==> r.error.ChannelNotFound? || r.error == InvalidChannelName || r.error == StackShapeMismatch
    ensures r.Err? && r.error.ChannelNotFound? <==> "M2" !in s.channels || "M1" !in s.channels
    ensures r.Err? && r.error.ChannelNotFound? ==> r.error.name == if "M2" !in s.channels then "M2" else "M1"
    ensures r.Err? && r.error == InvalidChannelName <==>
              && "M2" in s.channels && "M1" in s.channels
              && exists k :: 0 <= k < |s.config.eegNames| && !HasDigit(s.config.eegNames[k])
    ensures r.Ok? ==>
              && r.value.0.config == s.config && r.value.0.channels == s.channels
              && r.value.0.onsets == s.onsets && r.value.0.percentage == s.percentage
    ensures r.Ok? ==> r.value.1 == r.value.0.stages
    ensures r.Ok? && |s.config.eegNames| == 1 ==> r.value.0 == s
    ensures r.Ok? && |s.config.eegNames| > 1 ==>
              r.value.0.stages.Some? && forall i :: 0 <= i < |r.value.0.stages.value| ==> r.value.0.stages.value[i] != N1
  {
    var refs := [PredictPlan.rightRef, PredictPlan.leftRef];
    assert refs[0] == "M2" && refs[1] == "M1";
    var missing := FirstMissing(refs, s.channels);
    if missing.Some? then
      Err(ChannelNotFound(missing.value))
    else
      var rows :- PredictionRows(PredictPlan, s.config.eegNames, s.config.eogName, classify);
      if |rows| == 1 then
        Ok((s, s.stages))
      else if !Rectangular(rows) then
        Err(StackShapeMismatch)
      else
        var consensus := Combine(rows, s.config.keepN1);
        Ok((s.(stages := Some(consensus)), Some(consensus)))
  }

  /** The row `predict` gets for EEG channel `name`: the classifier on the view
      referenced to the mastoid of the other hemisphere. */
  function ContralateralRow(name: string, eog: Option<string>, classify: Classifier): seq<Stage>
    requires HasDigit(name)
  {
    classify(Referenced([if IsRightChannel(name) then "M1" else "M2"]), name, eog)
  }

  /** With several EEG channels on a recording that has both mastoid
      channels, `predict` caches the consensus of the rows obtained on the
      contralateral mastoid reference, in channel order. */
  lemma PredictCachesContralateralConsensus(s: Session, classify: Classifier)
    requires |s.config.eegNames| > 1
    requires "M1" in s.channels && "M2" in s.channels
    requires forall k :: 0 <= k < |s.config.eegNames| ==> HasDigit(s.config.eegNames[k])
    ensures var eeg := s.config.eegNames;
            var rows := seq(|eeg|, k requires 0 <= k < |eeg| => ContralateralRow(eeg[k], s.config.eogName, classify));
            var r := Predict(s, classify);
            (r.Ok? <==> Rectangular(rows))
            && (r.Ok? ==> r.value.0.stages == Some(Combine(rows, s.config.keepN1)))
  {
    var eeg := s.config.eegNames;
    var eog := s.config.eogName;
    var plan := PredictPlan;
    var rows := PredictionRows(plan, eeg, eog, classify).value;
    var expected := seq(|eeg|, k requires 0 <= k < |eeg| => ContralateralRow(eeg[k], eog, classify));
    forall k | 0 <= k < |eeg|
      ensures rows[k] == expected[k]
    {
      assert ViewFor(plan, IsRightChannel(eeg[k])) == Referenced([if IsRightChannel(eeg[k]) then "M1" else "M2"]);
    }
    assert rows == expected;
  }

  /** With a single EEG channel on a recording that has both mastoid
      channels, `predict` returns the cache unchanged. */
  lemma PredictSingleChannelKeepsCache(s: Session, classify: Classifier)
    requires |s.config.eegNames| == 1 && HasDigit(s.config.eegNames[0])
    requires "M1" in s.channels && "M2" in s.channels
    ensures Predict(s, classify) == Ok((s, s.stages))
  {
  }

  /** The configured reference channels play no part in `predict`. */
  lemma PredictIgnoresConfiguredReference(s: Session, ref: RefSpec, classify: Classifier)
    requires |s.config.eegNames| > 0
    ensures var s' := s.(config := s.config.(refChannel := ref));
            && Predict(s, classify).Ok? == Predict(s', classify).Ok?
            && (Predict(s, classify).Ok? ==> Predict(s, classify).value.1 == Predict(s', classify).value.1)
  {
  }

  /** `_check_sleep_stages`: the cached prediction when no override is given,
      otherwise the override after checking every entry against the label set. */
  function CheckSleepStages(cached: Option<seq<Stage>>, override: Option<seq<string>>): (r: Result<seq<Stage>>)
    ensures override.None? ==> (r.Ok? <==> cached.Some?)
    ensures override.None? && r.Ok? ==> r.value == cached.value
    ensures override.None? && r.Err? ==> r.error == MissingPrediction
    ensures override.Some? ==> (r.Ok? <==> forall i :: 0 <= i < |override.value| ==> override.value[i] in ValidCodes)
    ensures override.Some? && r.Ok? ==> Codes(r.value) == override.value
    ensures override.Some? && r.Err? ==> r.error == InvalidStageLabel
  {
    match override
    case None => if cached.None? then Err(MissingPrediction) else Ok(cached.value)
    case Some(labels) => ParseAll(labels)
  }

  /** `annotate_data`: the session's onset list grows by this pass's sleep
      onsets and the result is the prior annotations followed by the new ones. */
  function AnnotateData(s: Session, override: Option<seq<string>>, specifyStage: bool, prior: Annotations)
    : (r: Result<(Session, Annotations)>)
    ensures r.Err? <==> CheckSleepStages(s.stages, override).Err?
    ensures r.Err? ==> r.error == CheckSleepStages(s.stages, override).error
    ensures r.Ok? ==>
              var stages := CheckSleepStages(s.stages, override).value;
              var built := BuildAnnotations(stages, specifyStage, s.onsets);
              && r.value.0 == s.(onsets := built.onsets)
              && r.value.1 == Concat(prior, built.annotations)
  {
    var stages :- CheckSleepStages(s.stages, override);
    var built := BuildAnnotations(stages, specifyStage, s.onsets);
    Ok((s.(onsets := built.onsets), Concat(prior, built.annotations)))
  }

  /** Two annotation passes over the cache without a reset list every sleep onset twice. */
  lemma AnnotateTwiceDuplicatesOnsets(s: Session, specifyStage: bool, prior: Annotations)
    requires s.stages.Some?
    ensures var first := AnnotateData(s, None, specifyStage, prior);
            && first.Ok?
            && var second := AnnotateData(first.value.0, None, specifyStage, prior);
            && second.Ok?
            && second.value.0.onsets == s.onsets + SleepOnsets(s.stages.value) + SleepOnsets(s.stages.value)
  {
  }

  /** `get_tot_sleep_percentage` on a recording of `nSamples` samples at `sfreq` Hz. */
  function GetTotSleepPercentage(s: Session, override: Option<seq<string>>, nSamples: nat, sfreq: nat)
    : (r: Result<(Session, real)>)
    requires sfreq > 0
    ensures CheckSleepStages(s.stages, override).Err? ==> r.Err? && r.error == CheckSleepStages(s.stages, override).error
    ensures CheckSleepStages(s.stages, override) == Ok([]) ==> r == Err(NoEpochs)
    ensures CheckSleepStages(s.stages, override).Ok? && CheckSleepStages(s.stages, override).value != [] ==> r.Ok?
    ensures r.Ok? ==>
              var stages := CheckSleepStages(s.stages, override).value;
              && stages != []
              && r.value.0 == s.(percentage := Some(r.value.1))
              && Ok(r.value.1) == SleepPercentage(stages, nSamples, sfreq)
  {
    var stages :- CheckSleepStages(s.stages, override);
    var pct :- SleepPercentage(stages, nSamples, sfreq);
    Ok((s.(percentage := Some(pct)), pct))
  }
}

=== FILE: consensus.dfy ===
/** Consensus of several per-channel predictions: every row is compared with
    row 0 column by column; a unanimous label is kept except N1, which becomes
    W, and any disagreement becomes W. */
module Consensus {
  import opened Stages

  /** A stacked prediction matrix: at least one row, all rows of one length. */
  predicate Rectangular(m: seq<seq<Stage>>) {
    |m| > 0 && forall k :: 0 <= k < |m| ==> |m[k]| == |m[0]|
  }

  /** Column `i` agrees with row 0 in every row. */
  predicate Unanimous(m: seq<seq<Stage>>, i: nat)
    requires Rectangular(m) && i < |m[0]|
  {
    forall k :: 0 <= k < |m| ==> m[k][i] == m[0][i]
  }

  /** The label of one column, with the checker's N1 test as written: the
      second disjunct only repeats the first, so the flag has no effect. */
  function ColumnLabel(m: seq<seq<Stage>>, i: nat, keepN1: bool): Stage
    requires Rectangular(m) && i < |m[0]|
  {
    if Unanimous(m, i) then
      if m[0][i] == N1 || (!keepN1 && m[0][i] == N1) then W else m[0][i]
    else W
  }

  /** The consensus sequence: one label per column. Its contract says what a
      label means: N1 never survives, a sleep label is backed by every row,
      and a unanimous non-N1 column keeps its label. */
  function Combine(m: seq<seq<Stage>>, keepN1: bool): (r: seq<Stage>)
    requires Rectangular(m)
    ensures |r| == |m[0]|
    ensures forall i :: 0 <= i < |r| ==> r[i] != N1
    ensures forall i, k :: 0 <= i < |r| && 0 <= k < |m| && r[i] != W ==> m[k][i] == r[i]
    ensures forall i :: 0 <= i < |r| && Unanimous(m, i) && m[0][i] != N1 ==> r[i] == m[0][i]
  {
    seq(|m[0]|, i requires 0 <= i < |m[0]| => ColumnLabel(m, i, keepN1))
  }

  /** The three properties of `Combine` determine it: any sequence that has
      them is the consensus. */
  lemma CombineCharacterised(m: seq<seq<Stage>>, keepN1: bool, r: seq<Stage>)
    requires Rectangular(m)
    requires |r| == |m[0]|
    requires forall i :: 0 <= i < |r| ==> r[i] != N1
    requires forall i, k :: 0 <= i < |r| && 0 <= k < |m| && r[i] != W ==> m[k][i] == r[i]
    requires forall i :: 0 <= i < |r| && Unanimous(m, i) && m[0][i] != N1 ==> r[i] == m[0][i]
    ensures r == Combine(m, keepN1)
  {
    var c := Combine(m, keepN1);
    forall i | 0 <= i < |r|
      ensures r[i] == c[i]
    {
      if r[i] != W {
        assert m[0][i] == r[i];
        assert Unanimous(m, i);
      } else if c[i] != W {
        assert m[0][i] == c[i];
        assert Unanimous(m, i);
      }
    }
  }

  /** The "keep N1" flag changes nothing: N1 is demoted either way. */
  lemma KeepN1HasNoEffect(m: seq<seq<Stage>>)
    requires Rectangular(m)
    ensures Combine(m, true) == Combine(m, false)
  {
    CombineCharacterised(m, false, Combine(m, true));
  }

  /** Column-by-column comparison with row 0 followed by the per-column labelling,
      in the two passes the checker makes. */
  method CombinePredictions(m: seq<seq<Stage>>, keepN1: bool) returns (res: seq<Stage>)
    requires Rectangular(m)
    ensures res == Combine(m, keepN1)
  {
    var cols := |m[0]|;
    var check: seq<bool> := [];
    var i := 0;
    while i < cols
      invariant i <= cols
      invariant |check| == i
      invariant forall j :: 0 <= j < i ==> (check[j] <==> Unanimous(m, j))
    {
      var all := true;
      var k := 0;
      while k < |m|
        invariant k <= |m|
        invariant all <==> forall q :: 0 <= q < k ==> m[q][i] == m[0][i]
      {
        all := all && m[k][i] == m[0][i];
        k := k + 1;
      }
      check := check + [all];
      i := i + 1;
    }
    res := [];
    i := 0;
    while i < cols
      invariant i <= cols
      invariant |res| == i
      invariant forall j :: 0 <= j < i ==> res[j] == ColumnLabel(m, j, keepN1)
    {
      var st: Stage;
      if check[i] {
        if m[0][i] == N1 || (!keepN1 && m[0][i] == N1) {
          st := W;
        } else {
          st := m[0][i];
        }
      } else {
        st := W;
      }
      res := res + [st];
      i := i + 1;
    }
  }

  lemma CombineExamples()
    ensures Combine([[N2, N2], [N2, N2]], false) == [N2, N2]
    ensures Combine([[N1, N1]], true) == [W, W]
    ensures Combine([[N2, W], [N3, W]], false) == [W, W]
  {
    var a := [[N2, N2], [N2, N2]];
    assert Unanimous(a, 0) && Unanimous(a, 1);
    var b := [[N1, N1]];
    assert Unanimous(b, 0) && Unanimous(b, 1);
    var c := [[N2, W], [N3, W]];
    assert c[1][0] != c[0][0];
    assert !Unanimous(c, 0);
  }

  /** The consensus the flag's documentation describes: a unanimous N1 is
      demoted to W only when N1 is not to be kept. */
  function IntendedColumnLabel(m: seq<seq<Stage>>, i: nat, keepN1: bool): Stage
    requires Rectangular(m) && i < |m[0]|
  {
    if Unanimous(m, i) then
      if !keepN1 && m[0][i] == N1 then W else m[0][i]
    else W
  }

  function IntendedCombine(m: seq<seq<Stage>>, keepN1: bool): (r: seq<Stage>)
    requires Rectangular(m)
    ensures |r| == |m[0]|
    ensures forall i, k :: 0 <= i < |r| && 0 <= k < |m| && r[i] != W ==> m[k][i] == r[i]
    ensures keepN1 ==> forall i :: 0 <= i < |r| && Unanimous(m, i) ==> r[i] == m[0][i]
    ensures !keepN1 ==> r == Combine(m, keepN1)
  {
    seq(|m[0]|, i requires 0 <= i < |m[0]| => IntendedColumnLabel(m, i, keepN1))
  }

  /** Two channels that agree on N1 with the flag set: the code as written
      still reports W, the intended consensus reports N1. */
  lemma KeepN1Counterexample()
    ensures Combine([[N1], [N1]], true) == [W]
    ensures IntendedCombine([[N1], [N1]], true) == [N1]
  {
    assert Unanimous([[N1], [N1]], 0);
  }
}

=== FILE: errors.dfy ===
/** Failure-carrying values shared by every module of the SleepChecker model.
    Each exception the model keeps becomes one `Error` case; the ones it
    leaves out are listed in the README. */
module Errors {

  datatype Option<+T> = None | Some(value: T)

  datatype Error =
    | InvalidChannelName       // `which_hemisphere`: a name without any decimal digit
    | InvalidConfiguration     // constructor: an argument of the wrong shape
    | ChannelNotFound(name: string)  // constructor or `predict`: a required channel absent from the recording
    | MissingPrediction        // no override given and nothing cached by `predict`
    | InvalidStageLabel        // an override holding a value outside the label set
    | StackShapeMismatch       // `np.vstack` of prediction rows of different lengths
    | NoEpochs                 // `sleep_stages[-1]` on an empty sequence

  datatype Result<+T> = Ok(value: T) | Err(error: Error) {

    predicate IsFailure() {
      Err?
    }

    function PropagateFailure<U>(): Result<U>
      requires Err?
    {
      Err(error)
    }

    function Extract(): T
      requires Ok?
    {
      value
    }
  }
}

=== FILE: hemisphere.dfy ===
/** Hemisphere resolution by the 10-20 convention: the first run of decimal
    digits in a channel name is read as an integer; even means right
    hemisphere, odd means left. A name without digits is rejected. */
module Hemisphere {
  import opened Errors

  predicate IsDigit(c: char) {
    '0' <= c <= '9'
  }

  function DigitValue(c: char): (d: nat)
    requires IsDigit(c)
    ensures d < 10
  {
    c as int - '0' as int
  }

  predicate HasDigit(s: string) {
    exists j :: 0 <= j < |s| && IsDigit(s[j])
  }

  predicate AllDigits(ds: string) {
    forall j :: 0 <= j < |ds| ==> IsDigit(ds[j])
  }

  /** `s[i..e]` is the leftmost maximal run of digits in `s`: the run
      the pattern `[0-9]+` finds. */
  predicate IsFirstDigitRun(s: string, i: nat, e: nat) {
    && i < e <= |s|
    && (forall j :: i <= j < e ==> IsDigit(s[j]))
    && (forall j :: 0 <= j < i ==> !IsDigit(s[j]))
    && (e == |s| || !IsDigit(s[e]))
  }

  /** Index of the first digit at or after `k`, scanning left to right. */
  function FirstDigitFrom(s: string, k: nat): (r: Option<nat>)
    requires k <= |s|
    ensures r.Some? ==> k <= r.value < |s| && IsDigit(s[r.value])
    ensures r.Some? ==> forall j :: k <= j < r.value ==> !IsDigit(s[j])
    ensures r.None? ==> forall j :: k <= j < |s| ==> !IsDigit(s[j])
    decreases |s| - k
  {
    if k == |s| then None
    else if IsDigit(s[k]) then Some(k)
    else FirstDigitFrom(s, k + 1)
  }

  /** End of the digit run that starts at `i`: the run is as long as possible. */
  function DigitRunEnd(s: string, i: nat): (e: nat)
    requires i <= |s|
    ensures i <= e <= |s|
    ensures forall j :: i <= j < e ==> IsDigit(s[j])
    ensures e == |s| || !IsDigit(s[e])
    decreases |s| - i
  {
    if i < |s| && IsDigit(s[i]) then DigitRunEnd(s, i + 1) else i
  }

  /** The span of the first digit run, or None when the name has no digit. */
  function FirstDigitRun(s: string): (r: Option<(nat, nat)>)
    ensures r.Some? ==> IsFirstDigitRun(s, r.value.0, r.value.1)
    ensures r.None? <==> !HasDigit(s)
  {
    match FirstDigitFrom(s, 0)
    case None => None
    case Some(i) => Some((i, DigitRunEnd(s, i)))
  }

  /** There is only one first digit run, so the span above is the one. */
  lemma FirstDigitRunUnique(s: string, i: nat, e: nat, i': nat, e': nat)
    requires IsFirstDigitRun(s, i, e) && IsFirstDigitRun(s, i', e')
    ensures i == i' && e == e'
  {
    assert IsDigit(s[i]) && IsDigit(s[i']);
    if e < |s| {
      assert !IsDigit(s[e]);
    }
    if e' < |s| {
      assert !IsDigit(s[e']);
    }
  }

  /** The integer a string of decimal digits denotes (leading zeros allowed). */
  function DecimalValue(ds: string): nat
    requires AllDigits(ds)
  {
    if ds == [] then 0
    else 10 * DecimalValue(ds[..|ds| - 1]) + DigitValue(ds[|ds| - 1])
  }

  /** A decimal number is even exactly when its last digit is. */
  lemma ParityOfLastDigit(ds: string)
    requires AllDigits(ds) && ds != []
    ensures DecimalValue(ds) % 2 == DigitValue(ds[|ds| - 1]) % 2
  {
    var x := DecimalValue(ds[..|ds| - 1]);
    var d := DigitValue(ds[|ds| - 1]);
    var y := 5 * x;
    assert DecimalValue(ds) == 2 * y + d;
    EvenShiftKeepsParity(y, d);
  }

  /** Adding an even number keeps the parity. */
  lemma EvenShiftKeepsParity(y: int, d: int)
    ensures (2 * y + d) % 2 == d % 2
  {
  }

  /** The channel number: the integer value of the first digit run. */
  function ChannelNumber(s: string): (r: Option<nat>)
    ensures r.Some? <==> HasDigit(s)
    ensures r.Some? ==> forall i: nat, e: nat :: IsFirstDigitRun(s, i, e) ==>
              AllDigits(s[i..e]) && r.value == DecimalValue(s[i..e])
  {
    match FirstDigitRun(s)
    case None => None
    case Some((i, e)) =>
      assert forall j :: 0 <= j < e - i ==> s[i..e][j] == s[i + j];
      assert forall i': nat, e': nat :: IsFirstDigitRun(s, i', e') ==> i' == i && e' == e by {
        forall i': nat, e': nat | IsFirstDigitRun(s, i', e')
          ensures i' == i && e' == e
        {
          FirstDigitRunUnique(s, i, e, i', e');
        }
      }
      Some(DecimalValue(s[i..e]))
  }

  /** True for a right-hemisphere channel (even number), false for a left one. */
  predicate IsRightChannel(s: string)
    requires HasDigit(s)
  {
    ChannelNumber(s).value % 2 == 0
  }

  /** Hemisphere of a channel read from the last digit of its first digit run. */
  lemma RightIffRunEndsEven(s: string)
    requires HasDigit(s)
    ensures var (i, e) := FirstDigitRun(s).value;
            IsRightChannel(s) <==> DigitValue(s[e - 1]) % 2 == 0
  {
    var (i, e) := FirstDigitRun(s).value;
    ParityOfLastDigit(s[i..e]);
    assert s[i..e][e - i - 1] == s[e - 1];
  }

  /** One flag per name, in order; true marks a right-hemisphere channel.
      Any name without a digit makes the whole call fail, whichever it is. */
  function WhichHemisphere(names: seq<string>): (r: Result<seq<bool>>)
    ensures r.Ok? <==> forall k :: 0 <= k < |names| ==> HasDigit(names[k])
    ensures r.Err? ==> r.error == InvalidChannelName
    ensures r.Ok? ==> |r.value| == |names|
    ensures r.Ok? ==> forall k :: 0 <= k < |names| ==> (r.value[k] <==> IsRightChannel(names[k]))
  {
    if forall k :: 0 <= k < |names| ==> HasDigit(names[k]) then
      Ok(seq(|names|, k requires 0 <= k < |names| => ChannelNumber(names[k]).value % 2 == 0))
    else
      Err(InvalidChannelName)
  }

  /** A one-digit run is worth its digit. */
  lemma SingleDigitValue(c: char)
    requires IsDigit(c)
    ensures DecimalValue([c]) == DigitValue(c)
  {
    assert [c][..0] == [];
  }

  /** A letter followed by one digit, as in the mastoid and central electrodes. */
  lemma LetterDigitChannel(s: string)
    requires |s| == 2 && !IsDigit(s[0]) && IsDigit(s[1])
    ensures HasDigit(s)
    ensures IsRightChannel(s) <==> DigitValue(s[1]) % 2 == 0
  {
    assert FirstDigitRun(s) == Some((1, 2));
    assert s[1..2] == [s[1]];
    SingleDigitValue(s[1]);
  }

  /** The mastoid references and the central electrodes: M1 and C3 lie on
      the left, M2 and C4 on the right. */
  lemma ElectrodeHemispheres()
    ensures HasDigit("M1") && !IsRightChannel("M1")
    ensures HasDigit("M2") && IsRightChannel("M2")
    ensures HasDigit("C3") && !IsRightChannel("C3")
    ensures HasDigit("C4") && IsRightChannel("C4")
  {
    LetterDigitChannel("M1");
    LetterDigitChannel("M2");
    LetterDigitChannel("C3");
    LetterDigitChannel("C4");
  }

  /** The four mastoid and central electrodes the checker is used with. */
  lemma HemisphereExamples()
    ensures WhichHemisphere(["C4", "M2", "C3", "M1"]) == Ok([true, true, false, false])
  {
    var names := ["C4", "M2", "C3", "M1"];
    ElectrodeHemispheres();
    assert names[0] == "C4" && names[1] == "M2" && names[2] == "C3" && names[3] == "M1";
    var r := WhichHemisphere(names);
    assert r.value == [true, true, false, false];
  }

  /** A list holding a name without a digit, such as the midline Fpz, is rejected. */
  lemma DigitlessNameRejected()
    ensures WhichHemisphere(["Fp2", "Fpz"]) == Err(InvalidChannelName)
  {
    assert !HasDigit("Fpz") by {
      assert forall j :: 0 <= j < 3 ==> !IsDigit("Fpz"[j]);
    }
    assert ["Fp2", "Fpz"][1] == "Fpz";
  }
}

=== FILE: percentage.dfy ===
/** Total sleep percentage: the number of non-W epochs plus a bonus for a
    non-W last epoch, over the number of epochs, times 100. The recording is
    described by its sample count and sampling rate; Python's float `/`, `//`
    and `%` are modelled exactly on reals. */
module Percentage {
  import opened Errors
  import opened Stages

  /** The sampling rate written into the whole-epoch test, whatever the recording's rate. */
  const AssumedSfreq: real := 512.0

  const EpochLength: real := 30.0

  /** Python's floor division `x // y` for a positive divisor. */
  function FloorDiv(x: real, y: real): (q: int)
    requires y > 0.0
    ensures q as real <= x / y < q as real + 1.0
  {
    (x / y).Floor
  }

  /** Python's float `x % y` for a positive divisor: what is left of `x` after
      `x // y` whole multiples of `y`, never negative, below `y`, and `x`
      itself when `x` already lies in [0, y). */
  function FloatMod(x: real, y: real): (r: real)
    requires y > 0.0
    ensures x == y * FloorDiv(x, y) as real + r
    ensures 0.0 <= r < y
    ensures 0.0 <= x < y ==> r == x
  {
    var q := FloorDiv(x, y);
    MulDivBounds(x, y, q);
    assert 0.0 <= x < y ==> q == 0 by {
      if 0.0 <= x < y {
        DivBelowOne(x, y);
      }
    }
    x - y * q as real
  }

  lemma MulDivBounds(x: real, y: real, q: int)
    requires y > 0.0 && q as real <= x / y < q as real + 1.0
    ensures y * q as real <= x < y * q as real + y
  {
    var t := x / y;
    var f := t - q as real;
    assert x == y * t;
    assert x - y * q as real == y * f;
    PositiveProduct(y, f);
    PositiveProduct(y, 1.0 - f);
    assert y * (1.0 - f) == y - y * f;
  }

  /** Sign of a product with a positive factor. */
  lemma PositiveProduct(y: real, a: real)
    requires y > 0.0
    ensures a >= 0.0 ==> y * a >= 0.0
    ensures a > 0.0 ==> y * a > 0.0
    ensures y * a > 0.0 ==> a > 0.0
    ensures y * a >= 0.0 ==> a >= 0.0
  {
  }

  lemma DivBelowOne(x: real, y: real)
    requires y > 0.0 && 0.0 <= x < y
    ensures 0.0 <= x / y < 1.0
  {
    var t := x / y;
    assert x == y * t;
    PositiveProduct(y, t);
    assert y * (1.0 - t) == y - x;
    PositiveProduct(y, 1.0 - t);
  }

  /** `count / n * 100`: the share of `n` epochs that `count` units make, in percent. */
  function Percent(count: real, n: nat): real
    requires n > 0
  {
    count / n as real * 100.0
  }

  lemma PercentMonotone(a: real, b: real, n: nat)
    requires n > 0 && a <= b
    ensures Percent(a, n) <= Percent(b, n)
  {
    var d := n as real;
    assert d * (a / d) == a && d * (b / d) == b;
    assert a / d <= b / d;
  }

  lemma PercentAdd(a: real, b: real, n: nat)
    requires n > 0
    ensures Percent(a + b, n) == Percent(a, n) + Percent(b, n)
  {
    var d := n as real;
    assert (a + b) / d == a / d + b / d;
  }

  lemma PercentOfAll(n: nat)
    requires n > 0
    ensures Percent(n as real, n) == 100.0
  {
  }

  /** Seconds of recording: sample count over sampling rate. */
  function Duration(nSamples: nat, sfreq: nat): real
    requires sfreq > 0
  {
    nSamples as real / sfreq as real
  }

  /** The trailing-epoch bonus as written: zero for a W last epoch; otherwise a
      whole unit when the label count does not exceed the whole epochs of the
      recording read at 512 Hz, else the leftover fraction of a 30-second epoch
      at the recording's true rate. */
  function TrailingBonus(stages: seq<Stage>, nSamples: nat, sfreq: nat): (b: real)
    requires |stages| > 0 && sfreq > 0
    ensures 0.0 <= b <= 1.0
    ensures stages[|stages| - 1] == W ==> b == 0.0
    ensures (stages[|stages| - 1] != W && |stages| <= FloorDiv(nSamples as real / AssumedSfreq, EpochLength))
            ==> b == 1.0
    ensures (stages[|stages| - 1] != W && |stages| > FloorDiv(nSamples as real / AssumedSfreq, EpochLength))
            ==> b < 1.0
  {
    if stages[|stages| - 1] != W then
      if |stages| > FloorDiv(nSamples as real / AssumedSfreq, EpochLength) then
        FloatMod(Duration(nSamples, sfreq), EpochLength) / EpochLength
      else
        1.0
    else
      0.0
  }

  /** The percentage as the checker computes it; an empty label sequence fails
      at the look-up of its last element. The last non-W epoch is counted by
      the loop and again by the bonus. */
  function SleepPercentage(stages: seq<Stage>, nSamples: nat, sfreq: nat): (r: Result<real>)
    requires sfreq > 0
    ensures r.Err? <==> stages == []
    ensures r.Err? ==> r.error == NoEpochs
    ensures r.Ok? && stages[|stages| - 1] == W ==> r.value == Percent(CountSleep(stages) as real, |stages|)
    ensures r.Ok? ==> 0.0 <= r.value <= Percent(CountSleep(stages) as real + 1.0, |stages|)
  {
    if stages == [] then Err(NoEpochs)
    else
      var bonus := TrailingBonus(stages, nSamples, sfreq);
      var count := bonus + CountSleep(stages) as real;
      PercentMonotone(0.0, count, |stages|);
      PercentMonotone(count, CountSleep(stages) as real + 1.0, |stages|);
      Ok(Percent(count, |stages|))
  }

  /** The bonus pass and the counting loop of the checker. The percentage is
      reassigned on every iteration; the last assignment is the result. */
  method TotSleepPercentage(stages: seq<Stage>, nSamples: nat, sfreq: nat) returns (pct: real)
    requires |stages| > 0 && sfreq > 0
    ensures SleepPercentage(stages, nSamples, sfreq) == Ok(pct)
  {
    var count: real := 0.0;
    if stages[|stages| - 1] != W {
      if |stages| > FloorDiv(nSamples as real / AssumedSfreq, EpochLength) {
        count := count + FloatMod(Duration(nSamples, sfreq), EpochLength) / EpochLength;
      } else {
        count := count + 1.0;
      }
    }
    pct := 0.0;
    var i := 0;
    while i < |stages|
      invariant i <= |stages|
      invariant count == TrailingBonus(stages, nSamples, sfreq) + CountSleep(stages[..i]) as real
      invariant 0 < i ==> pct == Percent(count, |stages|)
    {
      assert stages[..i + 1][..i] == stages[..i];
      if stages[i] != W {
        count := count + 1.0;
      }
      pct := count / |stages| as real * 100.0;
      i := i + 1;
    }
    assert stages[..|stages|] == stages;
  }

  /** A non-W last epoch that the whole-epoch test treats as complete adds a
      full extra unit on top of its own count. */
  lemma WholeTrailingEpochCountedTwice(stages: seq<Stage>, nSamples: nat, sfreq: nat)
    requires sfreq > 0 && |stages| > 0 && stages[|stages| - 1] != W
    requires |stages| <= FloorDiv(nSamples as real / AssumedSfreq, EpochLength)
    ensures SleepPercentage(stages, nSamples, sfreq) == Ok(Percent(CountSleep(stages) as real + 1.0, |stages|))
  {
  }

  /** Otherwise a non-W last epoch adds the leftover fraction of an epoch. */
  lemma PartialTrailingEpoch(stages: seq<Stage>, nSamples: nat, sfreq: nat)
    requires sfreq > 0 && |stages| > 0 && stages[|stages| - 1] != W
    requires |stages| > FloorDiv(nSamples as real / AssumedSfreq, EpochLength)
    ensures var f := FloatMod(Duration(nSamples, sfreq), EpochLength) / EpochLength;
            && 0.0 <= f < 1.0
            && SleepPercentage(stages, nSamples, sfreq)
               == Ok(Percent(CountSleep(stages) as real + f, |stages|))
  {
  }

  /** Where the whole-epoch test holds, the recording's sampling rate plays no part. */
  lemma WholeEpochTestIgnoresSamplingRate(stages: seq<Stage>, nSamples: nat, sfreq: nat, sfreq': nat)
    requires sfreq > 0 && sfreq' > 0 && |stages| > 0
    requires |stages| <= FloorDiv(nSamples as real / AssumedSfreq, EpochLength)
    ensures SleepPercentage(stages, nSamples, sfreq) == SleepPercentage(stages, nSamples, sfreq')
  {
  }

  /** Four epochs, two asleep, last one awake, two minutes of recording: 50%. */
  lemma PercentageExample(sfreq: nat)
    requires sfreq > 0
    ensures SleepPercentage([W, N2, N2, W], 120 * sfreq, sfreq) == Ok(50.0)
  {
    var s := [W, N2, N2, W];
    assert s[..3] == [W, N2, N2] && s[..3][..2] == [W, N2] && s[..3][..2][..1] == [W];
    assert [W][..0] == [];
    assert CountSleep(s) == 2;
  }

  /** One sleeping epoch in 30 s at 512 Hz: the checker reports 200%. */
  lemma PercentageCanExceedHundred()
    ensures SleepPercentage([N2], 15360, 512) == Ok(200.0)
  {
    assert [N2][..0] == [];
    assert CountSleep([N2]) == 1;
    assert FloorDiv(15360.0 / AssumedSfreq, EpochLength) == 1;
  }

  /** The percentage with the last epoch counted once, as the fraction its
      recorded time fills when the recording ends inside it and as one unit
      otherwise, and with the whole-epoch test at the recording's own rate. */
  function IntendedSleepPercentage(stages: seq<Stage>, nSamples: nat, sfreq: nat): (r: Result<real>)
    requires sfreq > 0
    ensures r.Err? <==> stages == []
    ensures r.Ok? ==> 0.0 <= r.value <= 100.0
    ensures r.Ok? && stages[|stages| - 1] == W ==> r == SleepPercentage(stages, nSamples, sfreq)
    ensures r.Ok? && |stages| <= FloorDiv(Duration(nSamples, sfreq), EpochLength) ==>
              r.value == Percent(CountSleep(stages) as real, |stages|)
  {
    if stages == [] then Err(NoEpochs)
    else
      var last := |stages| - 1;
      var before := CountSleep(stages[..last]);
      assert CountSleep(stages) == before + (if stages[last] != W then 1 else 0);
      var bonus := IntendedBonus(stages, nSamples, sfreq);
      var count := before as real + bonus;
      PercentMonotone(0.0, count, |stages|);
      PercentMonotone(count, |stages| as real, |stages|);
      PercentOfAll(|stages|);
      Ok(Percent(count, |stages|))
  }

  /** The trailing unit with the whole-epoch test at the recording's own rate. */
  function IntendedBonus(stages: seq<Stage>, nSamples: nat, sfreq: nat): (b: real)
    requires |stages| > 0 && sfreq > 0
    ensures 0.0 <= b <= 1.0
    ensures stages[|stages| - 1] == W ==> b == 0.0
    ensures stages[|stages| - 1] != W && |stages| <= FloorDiv(Duration(nSamples, sfreq), EpochLength) ==> b == 1.0
  {
    if stages[|stages| - 1] == W then 0.0
    else if |stages| > FloorDiv(Duration(nSamples, sfreq), EpochLength) then
      FloatMod(Duration(nSamples, sfreq), EpochLength) / EpochLength
    else 1.0
  }

  /** At 512 Hz with a non-W last epoch, the checker's figure exceeds the
      intended one by exactly one epoch's share. */
  lemma DoubleCountOfLastEpoch(stages: seq<Stage>, nSamples: nat)
    requires |stages| > 0 && stages[|stages| - 1] != W
    ensures SleepPercentage(stages, nSamples, 512).value
            == IntendedSleepPercentage(stages, nSamples, 512).value + Percent(1.0, |stages|)
  {
    var last := |stages| - 1;
    var before := CountSleep(stages[..last]);
    assert CountSleep(stages) == before + 1;
    assert Duration(nSamples, 512) == nSamples as real / AssumedSfreq;
    var b := TrailingBonus(stages, nSamples, 512);
    assert IntendedBonus(stages, nSamples, 512) == b;
    PercentAdd(before as real + b, 1.0, |stages|);
    assert b + CountSleep(stages) as real == (before as real + b) + 1.0;
  }

  /** The single sleeping epoch of 30 s at 512 Hz: 200% as written, 100% intended. */
  lemma DoubleCountCounterexample()
    ensures SleepPercentage([N2], 15360, 512) == Ok(200.0)
    ensures IntendedSleepPercentage([N2], 15360, 512) == Ok(100.0)
  {
    PercentageCanExceedHundred();
    DoubleCountOfLastEpoch([N2], 15360);
  }
}

=== FILE: reference.dfy ===
/** Reference strategy and view selection of `predict`: with two reference
    channels on opposite hemispheres the recording is split into a view
    referenced to the right-hemisphere channel and one referenced to the
    left-hemisphere channel; otherwise one combined view is used. Each EEG
    channel is then classified on the view its own hemisphere flag selects. */
module Reference {
  import opened Errors
  import opened Stages
  import opened Hemisphere

  /** A copy of the recording re-referenced to the listed channels. */
  datatype View = Referenced(refs: seq<string>)

  /** Unified: one view referenced to all of `refs`.
      Split: one view per hemisphere, each referenced to a single channel. */
  datatype Plan = Unified(refs: seq<string>) | Split(rightRef: string, leftRef: string)

  /** The external classifier: the labels it predicts for one EEG channel
      (with the optional EOG channel) on one re-referenced view. */
  type Classifier = (View, string, Option<string>) -> seq<Stage>

  /** The reference list `predict` uses; it is fixed in the method and does
      not come from the configured reference channels. */
  const PredictRefs: seq<string> := ["M1", "M2"]

  /** Python's bitwise complement `~k` on integers. */
  function BitNot(k: int): int {
    -k - 1
  }

  /** Python indexing, where a negative index counts from the end. */
  function PyIndex<T>(s: seq<T>, k: int): T
    requires -|s| <= k < |s|
  {
    if 0 <= k then s[k] else s[|s| + k]
  }

  /** On a pair, `~k` selects the element that `k` does not. */
  lemma ComplementIndexOfPair<T>(s: seq<T>, k: nat)
    requires |s| == 2 && k < 2
    ensures PyIndex(s, BitNot(k)) == s[1 - k]
  {
  }

  /** The first position holding true, as `np.where(flags)[0][0]` gives it. */
  function FirstTrue(flags: seq<bool>): (k: nat)
    requires true in flags
    ensures k < |flags| && flags[k]
    ensures forall j :: 0 <= j < k ==> !flags[j]
  {
    if flags[0] then 0 else FirstTrue(flags[1..]) + 1
  }

  /** On a pair whose flags differ, `refs[idx]` with `idx` the first flagged
      position and `refs[~idx]` are the flagged element and the other one. */
  lemma PairChoice<T>(refs: seq<T>, isRh: seq<bool>)
    requires |refs| == 2 && |isRh| == 2 && isRh[0] != isRh[1]
    ensures var idx := FirstTrue(isRh);
            && idx < 2 && isRh[idx] && !isRh[1 - idx]
            && PyIndex(refs, BitNot(idx)) == refs[1 - idx]
  {
    var idx := FirstTrue(isRh);
    if isRh[0] {
      assert idx == 0;
    } else {
      assert isRh[1..][0];
      assert idx == 1;
    }
    ComplementIndexOfPair(refs, idx);
  }

  /** The two references a split picks: the right-hemisphere one first and
      the other second, which between them are the pair. */
  lemma SplitReferences(refs: seq<string>, isRh: seq<bool>)
    requires |refs| == 2 && WhichHemisphere(refs) == Ok(isRh) && isRh[0] != isRh[1]
    ensures var idx := FirstTrue(isRh);
            var right := refs[idx];
            var left := PyIndex(refs, BitNot(idx));
            && HasDigit(right) && IsRightChannel(right) && HasDigit(left) && !IsRightChannel(left)
            && (refs == [right, left] || refs == [left, right])
  {
    PairChoice(refs, isRh);
    var idx := FirstTrue(isRh);
    assert isRh[idx] == IsRightChannel(refs[idx]) && isRh[1 - idx] == IsRightChannel(refs[1 - idx]);
    assert refs == [refs[0], refs[1]];
  }

  /** The reference strategy for a list of reference channels. */
  function ReferencePlan(refs: seq<string>): (r: Result<Plan>)
    ensures r.Err? <==> |refs| == 2 && !(HasDigit(refs[0]) && HasDigit(refs[1]))
    ensures r.Err? ==> r.error == InvalidChannelName
    ensures r.Ok? && r.value.Split? <==>
              |refs| == 2 && HasDigit(refs[0]) && HasDigit(refs[1])
              && IsRightChannel(refs[0]) != IsRightChannel(refs[1])
    ensures r.Ok? && r.value.Unified? ==> r.value.refs == refs
    ensures r.Ok? && r.value.Split? ==>
              && HasDigit(r.value.rightRef) && IsRightChannel(r.value.rightRef)
              && HasDigit(r.value.leftRef) && !IsRightChannel(r.value.leftRef)
              && (refs == [r.value.rightRef, r.value.leftRef] || refs == [r.value.leftRef, r.value.rightRef])
  {
    if |refs| == 2 then
      var isRh :- WhichHemisphere(refs);
      if isRh[0] != isRh[1] then
        SplitReferences(refs, isRh);
        var idx := FirstTrue(isRh);
        Ok(Split(refs[idx], PyIndex(refs, BitNot(idx))))
      else
        Ok(Unified(refs))
    else
      Ok(Unified(refs))
  }

  /** The plan `predict` works with: the split of M1, M2, with M2 as the right
      reference and M1 as the left (see `PredictRefsSplit`). */
  const PredictPlan: Plan := Split("M2", "M1")

  /** The fixed list M1, M2 always splits: M2 is the right reference, M1 the left. */
  lemma PredictRefsSplit()
    ensures ReferencePlan(PredictRefs) == Ok(PredictPlan)
  {
    ElectrodeHemispheres();
    var r := ReferencePlan(PredictRefs);
    assert r.Ok? && r.value.Split?;
    assert IsRightChannel(r.value.rightRef);
    assert r.value.rightRef == "M2";
  }

  /** The view an EEG channel is classified on: `[raw_rh, raw_lh][is_rh]`, so a
      right-hemisphere channel gets the view referenced to the left channel. */
  function ViewFor(plan: Plan, isRight: bool): (v: View)
    ensures plan.Unified? ==> v.refs == plan.refs
    ensures plan.Split? && isRight ==> v.refs == [plan.leftRef]
    ensures plan.Split? && !isRight ==> v.refs == [plan.rightRef]
  {
    match plan
    case Unified(refs) => Referenced(refs)
    case Split(rightRef, leftRef) =>
      [Referenced([rightRef]), Referenced([leftRef])][if isRight then 1 else 0]
  }

  /** One prediction row per EEG channel, in the configured channel order. In a
      split the EEG names must all resolve to a hemisphere. */
  function PredictionRows(plan: Plan, eeg: seq<string>, eog: Option<string>,
                          classify: Classifier): (r: Result<seq<seq<Stage>>>)
    ensures r.Ok? <==> (plan.Split? ==> forall k :: 0 <= k < |eeg| ==> HasDigit(eeg[k]))
    ensures r.Err? ==> r.error == InvalidChannelName
    ensures r.Ok? ==> |r.value| == |eeg|
    ensures r.Ok? && plan.Unified? ==>
              forall i :: 0 <= i < |eeg| ==> r.value[i] == classify(Referenced(plan.refs), eeg[i], eog)
    ensures r.Ok? && plan.Split? ==>
              forall i :: 0 <= i < |eeg| ==>
                r.value[i] == classify(ViewFor(plan, IsRightChannel(eeg[i])), eeg[i], eog)
  {
    match plan
    case Unified(refs) =>
      Ok(seq(|eeg|, i requires 0 <= i < |eeg| => classify(Referenced(refs), eeg[i], eog)))
    case Split(_, _) =>
      var isRh :- WhichHemisphere(eeg);
      Ok(seq(|eeg|, i requires 0 <= i < |eeg| => classify(ViewFor(plan, isRh[i]), eeg[i], eog)))
  }

  /** In a split every EEG channel is classified on a view referenced to one
      reference channel of the opposite hemisphere. */
  lemma ContralateralViews(refs: seq<string>, eeg: seq<string>, eog: Option<string>, classify: Classifier)
    requires ReferencePlan(refs).Ok? && ReferencePlan(refs).value.Split?
    requires forall k :: 0 <= k < |eeg| ==> HasDigit(eeg[k])
    ensures var plan := ReferencePlan(refs).value;
            var rows := PredictionRows(plan, eeg, eog, classify);
            && rows.Ok? && |rows.value| == |eeg|
            && forall i :: 0 <= i < |eeg| ==>
                 var v := ViewFor(plan, IsRightChannel(eeg[i]));
                 && |v.refs| == 1 && v.refs[0] in refs && HasDigit(v.refs[0])
                 && IsRightChannel(v.refs[0]) != IsRightChannel(eeg[i])
                 && rows.value[i] == classify(v, eeg[i], eog)
  {
    var plan := ReferencePlan(refs).value;
    assert plan.rightRef in refs && plan.leftRef in refs;
  }
}

=== FILE: stages.dfy ===
/** Sleep-stage labels: the closed set W, N1, N2, N3, R and their two-letter codes. */
module Stages {
  import opened Errors

  datatype Stage = W | N1 | N2 | N3 | R

  /** The codes an override may contain, in the order the checker lists them. */
  const ValidCodes: seq<string> := ["W", "N1", "N2", "N3", "R"]

  /** The text code of a stage, as stored in the checker's "U2" label arrays. */
  function Code(st: Stage): (c: string)
    ensures c in ValidCodes
    ensures 0 < |c| <= 2
  {
    match st
    case W => "W"
    case N1 => "N1"
    case N2 => "N2"
    case N3 => "N3"
    case R => "R"
  }

  /** Reads one code back into a stage; anything outside the label set is rejected. */
  function Parse(c: string): (r: Option<Stage>)
    ensures r.Some? <==> c in ValidCodes
    ensures r.Some? ==> Code(r.value) == c
  {
    if c == "W" then Some(W)
    else if c == "N1" then Some(N1)
    else if c == "N2" then Some(N2)
    else if c == "N3" then Some(N3)
    else if c == "R" then Some(R)
    else None
  }

  lemma ParseCode(st: Stage)
    ensures Parse(Code(st)) == Some(st)
  {
  }

  /** The codes of a whole label sequence, position by position. */
  function Codes(stages: seq<Stage>): (cs: seq<string>)
    ensures |cs| == |stages|
    ensures forall i :: 0 <= i < |stages| ==> cs[i] == Code(stages[i])
  {
    seq(|stages|, i requires 0 <= i < |stages| => Code(stages[i]))
  }

  /** Validates a caller-supplied label sequence: every entry must be one of the
      valid codes, and then the labels are exactly the ones written. */
  function ParseAll(cs: seq<string>): (r: Result<seq<Stage>>)
    ensures r.Ok? <==> forall i :: 0 <= i < |cs| ==> cs[i] in ValidCodes
    ensures r.Err? ==> r.error == InvalidStageLabel
    ensures r.Ok? ==> |r.value| == |cs| && forall i :: 0 <= i < |cs| ==> Code(r.value[i]) == cs[i]
  {
    if cs == [] then Ok([])
    else
      var head := Parse(cs[0]);
      var rest := ParseAll(cs[1..]);
      if head.None? then Err(InvalidStageLabel)
      else if rest.Err? then
        assert exists i :: 1 <= i < |cs| && cs[i] !in ValidCodes by {
          var j :| 0 <= j < |cs[1..]| && cs[1..][j] !in ValidCodes;
          assert cs[j + 1] == cs[1..][j];
        }
        Err(rest.error)
      else
        var stages := [head.value] + rest.value;
        assert forall i :: 1 <= i < |cs| ==> cs[i] == cs[1..][i - 1] && stages[i] == rest.value[i - 1];
        Ok(stages)
  }

  lemma ParseAllCodes(stages: seq<Stage>)
    ensures ParseAll(Codes(stages)) == Ok(stages)
  {
    var r := ParseAll(Codes(stages));
    assert r.Ok?;
    CodesInjective(r.value, stages);
  }

  lemma CodesInjective(a: seq<Stage>, b: seq<Stage>)
    requires Codes(a) == Codes(b)
    ensures a == b
  {
    assert |a| == |b|;
    forall i | 0 <= i < |a|
      ensures a[i] == b[i]
    {
      assert Code(a[i]) == Codes(a)[i];
      ParseCode(a[i]);
      ParseCode(b[i]);
    }
  }

  /** Number of epochs whose label is not W. */
  function CountSleep(stages: seq<Stage>): (n: nat)
    ensures n <= |stages|
    ensures n == 0 <==> forall i :: 0 <= i < |stages| ==> stages[i] == W
  {
    if stages == [] then 0
    else
      var rest := CountSleep(stages[..|stages| - 1]);
      assert forall i :: 0 <= i < |stages| - 1 ==> stages[i] == stages[..|stages| - 1][i];
      rest + (if stages[|stages| - 1] != W then 1 else 0)
  }
}
